=== FILE: README.md ===
# Recipe website: fallback fetches, champion cards and bookmarks

This project models the sequential logic of a browser recipe-discovery application: a
listing page, a bookmarks page and a details page that fetch from a third-party recipe
API, and a per-user bookmark document kept in a managed document store.

The network and the store are abstracted away. A fetch is an oracle `Request -> Outcome`.
An outcome is a response with a status and a body, or a transport error. The store is a
map from user id to that user's bookmark document. Each asynchronous handler becomes one
pure function from the state before it to the state after it settles.

Modules:

- `Fetch` holds the requests, outcomes and the `response.ok` check. It also holds `Chain`,
  the general ordered-credential fallback policy. Each call site is proved to be an
  instance of `Chain`, or shown not to be one.
- `Listing` (`src/App.jsx`) covers the random listing with its quota fallback, the
  search and its calorie defaulting, and which list is displayed. It also covers the
  "healthiest" and "shortest preparation time" champions and their indices, and the
  scroll guard.
- `Auth` (`src/AuthContext.jsx`) covers `addBookmark` and `removeBookmark`.
- `BookmarksPage` (`src/pages/Bookmarks.jsx`) covers loading the bookmarked ids and the
  per-id details chain. The chain is modelled as written, where the third step throws
  before fetching, and as evidently intended, with three keys (see "## Findings").
- `DetailsPage` (`src/pages/Details.jsx`) covers the two-key details fetch, the
  bookmark check, the toggle and the nutrient lookups.

Behaviour the model states explicitly, because a reader may well expect otherwise:

- Champion ties go to the LATER entry. The reducers keep `prev` only on a strict win
  (`src/App.jsx:107`, `src/App.jsx:116`), so the first of several equal
  entries does not win. `Listing.TieGoesToLaterEntry` shows it.
- The bookmark indicator is not flipped optimistically. `handleBookmark` awaits the write
  and then negates the flag. If the write throws, the flag is unchanged
  (`src/pages/Details.jsx:61-69`).
- Only the bookmarks batch falls through on every kind of failure, once: after the backup
  fails it throws a `ReferenceError` instead of trying a third key. The details fetch
  falls through on any non-ok status, but it never checks the backup's status. The
  listing falls through only on status 402. The search has no fallback.

## Model

| member | source | states |
|---|---|---|
| `Fetch.Checked` | src/pages/Bookmarks.jsx:38-44 | An ok (2xx) response yields its body. A non-ok response fails with its own status. A transport error fails as a network failure. |
| `Fetch.Chain` | src/pages/Bookmarks.jsx:49-56 | The general fallback policy. The keys tried are a prefix of the key list. Every key before the last failed and was accepted as a reason to move on. The result is the checked outcome of the last key. Stopping early means the last key succeeded or its failure does not advance. |
| `Fetch.ChainIsDetermined` | src/pages/Bookmarks.jsx:49-56 | `Chain`'s contract pins down the attempt completely. Any attempt of that shape is `Chain`'s. |
| `Listing.FetchAllRecipeData` | src/App.jsx:42-63 | At most 2 calls, and the primary is first. The backup is called iff the primary answered 402. A failure after the backup carries the backup's status. The result is ok iff the last response is ok. |
| `Listing.ListingIsQuotaChain` | src/App.jsx:46-63 | The listing fetch equals the general policy over [primary, backup] that advances only on quota exhaustion. |
| `Listing.OrDefault` | src/App.jsx:83-85 | Falling back to the default with a logical or: NaN and 0 both give the default. Any other parsed value is kept. |
| `Listing.MinCaloriesSent` | src/App.jsx:84 | The minCalories sent is the parsed value, or 0 when parsing yields NaN. |
| `Listing.MaxCaloriesSent` | src/App.jsx:85 | The maxCalories sent is the parsed value unless it is NaN or 0. Both of those become 1000, so an entered 0 is sent as 1000. |
| `Listing.SearchRequest` | src/App.jsx:82-86 | The search uses the single primary key and `number=15`. It passes the query and type through. minCalories is the parsed value, or 0 for NaN. maxCalories is the parsed value, or 1000 for NaN or 0. |
| `Listing.Display` | src/App.jsx:101 | The displayed list is the filtered results iff `isFiltered` is set, and otherwise the random listing. |
| `Listing.AfterLoad` | src/App.jsx:38-72 | The initial load clears the filter flag and the error. A body replaces the listing, with missing `recipes` read as empty. A failure keeps the listing and records the error. The filtered list is kept. |
| `Listing.AfterSearch` | src/App.jsx:78-98 | A successful search sets the filter flag and displays its results. A failed search changes neither the flag nor the displayed list, and records the error. The listing is never touched. |
| `Listing.InitialLoad` | src/App.jsx:37-76 | After the initial load the listing is displayed. The error is clear iff the fallback fetch succeeded. |
| `Listing.SearchItems` | src/App.jsx:78-99 | An ok search response makes its results the displayed list. Any other outcome leaves the displayed list and the filter flag alone. A non-ok response records its status. |
| `Listing.FilteredIffSearchSinceLoad` | src/App.jsx:41-101 | Starting from the initial state, the filtered results are displayed iff some search has succeeded since the last load. |
| `Listing.Reduce` | src/App.jsx:105-118 | The running champion is the seed or an entry of the list. It ranks at least as high as the seed and as every entry. |
| `Listing.Champion` | src/App.jsx:103-119 | It is null exactly for an empty list. Otherwise it is an entry whose health score is at least, or whose preparation time is at most, every entry's. |
| `Listing.ReduceEndsOnLastBest` | src/App.jsx:105-118 | The scan keeps its seed if every entry is strictly worse. Otherwise it ends on the last entry attaining the best value. |
| `Listing.ChampionIsLastBest` | src/App.jsx:103-119 | For a non-empty list, the champion is the last entry attaining the maximum health score, or the minimum preparation time. |
| `Listing.LastBestIsUnique` | src/App.jsx:103-119 | Only one position can be "the last best entry", so the champion's position is well defined. |
| `Listing.TieGoesToLaterEntry` | src/App.jsx:107 | Of two equally healthy recipes, the second is the champion. |
| `Listing.HeadIsLastBest` | src/App.jsx:105-118 | An entry strictly better than every later entry is the last best entry. |
| `Listing.LastBestOfTail` | src/App.jsx:105-118 | The last best entry of the tail stays the last best entry when the head ranks no higher. |
| `Listing.FindIndex` | src/App.jsx:122 | `findIndex` by identity gives -1 iff the recipe is absent. Otherwise it gives the first position holding that very object. |
| `Listing.ChampionIndex` | src/App.jsx:121-129 | `highestHealthScoreIndex` / `shortestPreparationTimeIndex`: -1 iff the list is empty. Otherwise a valid position holding the champion. |
| `Listing.ChampionIndexLocatesChampion` | src/App.jsx:121-129 | The index is -1 iff the list is empty. Otherwise it is a valid position holding the champion. When entries are distinct objects, it is the position of the last best entry. |
| `Listing.ScrollTarget` | src/App.jsx:131-136 | Scrolling happens iff the index is non-negative, in range and has a mounted element, and it goes to exactly that index. |
| `Listing.ViewRecipeScrollsToChampion` | src/App.jsx:121-142 | With every entry of a non-empty list mounted, "View Recipe" scrolls, and to a position holding the champion. |
| `Listing.EmptyListingScrollsNowhere` | src/App.jsx:121-136 | With an empty list both champions are null, and the -1 index makes "View Recipe" a no-op. |
| `Auth.ArrayUnion` | src/AuthContext.jsx:43-45 | `arrayUnion`: the result holds exactly the old elements plus `id`. The old list is a prefix of the result, which grows by at most one. Duplicate-freedom is kept. |
| `Auth.ArrayRemove` | src/AuthContext.jsx:55-57 | `arrayRemove`: the result holds exactly the old elements other than `id`. Every occurrence is dropped. Duplicate-freedom is kept. |
| `Auth.RemoveUndoesAppend` | src/AuthContext.jsx:42-57 | Removing an id that was just appended to a list without it gives back the list. |
| `Auth.RemoveAbsentIsIdentity` | src/AuthContext.jsx:55-57 | Removing an absent id leaves the list unchanged. |
| `Auth.AddBookmark` | src/AuthContext.jsx:36-49 | Without a user it fails with "Not authenticated". A missing document is created holding exactly `[id]`. An existing one gains `id` as a set union, with no duplicate and no change if already present. Every other user's document is unchanged. |
| `Auth.RemoveBookmark` | src/AuthContext.jsx:51-58 | Without a user it fails with "Not authenticated". A missing document is an error and is never created. It succeeds iff a user is signed in and their document exists. Then `id` is removed as a set difference, and the documents that exist stay the same. Every other user's document is unchanged. |
| `Auth.AddThenRemoveRestoresStore` | src/AuthContext.jsx:36-58 | Adding a new id to a user's existing list and then removing it restores the store exactly. |
| `BookmarksPage.FetchWithFallbackAsWritten` | src/pages/Bookmarks.jsx:49-56 | The chain as written: at most 2 calls, primary then backup. The backup is called iff the primary failed in any way. It succeeds iff the last call succeeded, with that body. When both fail it rejects with a `ReferenceError` and makes no third call, because line 55 names the undeclared `API_BACKUP2`. |
| `BookmarksPage.FetchWithFallback` | src/pages/Bookmarks.jsx:49-56 | The chain as evidently intended: keys in the order primary, backup, backup2, at most 3 calls. Each later key is tried only after the earlier ones failed. Stopping before the third key means success. |
| `BookmarksPage.FallbackIsAnyFailureChain` | src/pages/Bookmarks.jsx:49-56 | The intended chain equals the general policy over the three keys that advances on every failure. |
| `BookmarksPage.AsWrittenAgreesBeforeSecondBackup` | src/pages/Bookmarks.jsx:49-56 | When the intended chain stops within two keys, the written chain gives the same attempt. When the intended chain would reach the second backup, the written chain has tried the same two keys and rejects with a `ReferenceError`. |
| `BookmarksPage.SecondBackupSuccessIsLost` | src/pages/Bookmarks.jsx:55 | For an id whose primary and backup fail but whose second backup would succeed, the intended chain returns the details, the written chain rejects, and a one-id bookmarks view keeps its old details. |
| `BookmarksPage.FetchAllDetails` | src/pages/Bookmarks.jsx:47-59 | The batch over the written chains succeeds iff every id's chain succeeds, and then entry i is the details for id i. It rejects iff some id's primary and backup both fail, and then the error is a `ReferenceError`. |
| `BookmarksPage.CallsIssued` | src/pages/Bookmarks.jsx:47-59 | Between 1 and 2 requests per id, and exactly one per id iff every primary succeeds. Every id's primary request is issued, and its backup request is issued when the primary failed. Every request uses the primary or backup key, so none uses the second backup key. |
| `BookmarksPage.LoadBookmarked` | src/pages/Bookmarks.jsx:21-30 | The id list is replaced only when a user is signed in and their document exists. A missing field gives the empty list. Otherwise nothing changes. |
| `BookmarksPage.LoadDetails` | src/pages/Bookmarks.jsx:36-66 | An empty id list triggers nothing. A rejected batch leaves the details unchanged. A changed details list matches the ids position by position, each entry the written chain's result. |
| `BookmarksPage.ExhaustedIdKeepsDetails` | src/pages/Bookmarks.jsx:47-61 | If the primary and backup keys both fail for some id, that id's chain makes exactly those 2 calls and rejects with a `ReferenceError`. No request uses a distinct second backup key, and the view's details are left unchanged. |
| `DetailsPage.FetchRecipeDetails` | src/pages/Details.jsx:28-41 | At most 2 calls. The backup is called iff the primary answered with any non-ok status. The backup's body is kept whatever its status. Only a transport error fails. |
| `DetailsPage.DetailsFetchVersusChain` | src/pages/Details.jsx:29-40 | The details fetch tries the same keys as the general two-key policy that advances on any non-ok response. The results differ only when the backup is non-ok: the details fetch keeps the body and the policy fails with that status. |
| `DetailsPage.BackupStatusIsIgnored` | src/pages/Details.jsx:33-40 | Changing the backup response's status does not change the details fetch's result. |
| `DetailsPage.LoadDetails` | src/pages/Details.jsx:27-44 | A fetched body is shown. A rejection leaves the view as it was, still loading if nothing was shown. |
| `DetailsPage.CheckBookmark` | src/pages/Details.jsx:46-59 | With a user, the indicator becomes true iff their document exists and lists `id`. With no user, or a document lacking the field (the check throws), the indicator is unchanged. |
| `DetailsPage.HandleBookmark` | src/pages/Details.jsx:61-69 | A flagged recipe is removed, otherwise added. The flag is negated only when the write succeeds, and then the store agrees with it. A successful write changes only whether `id` is in the signed-in user's document; every other id of theirs and every other user's document stay as they were. A failed write, for example with no user, leaves the flag and the store alone. |
| `DetailsPage.ToggleTwiceRestoresFlag` | src/pages/Details.jsx:61-69 | Two toggles whose writes both succeed restore the view. |
| `DetailsPage.ToggleTwiceRestoresStore` | src/pages/Details.jsx:61-69 | For a signed-in user whose document exists and has a `bookmarks` field lacking the id, two toggles both succeed and restore the indicator and the store exactly. |
| `DetailsPage.ToggleTwiceWithoutDocument` | src/pages/Details.jsx:61-69 | For a signed-in user with no document, two toggles both succeed and restore the indicator and the saved ids. The store is not restored: an empty document stays behind. |
| `DetailsPage.LoadedIdsAreChecked` | src/pages/Bookmarks.jsx:22-28 | For a user whose document has the field, the bookmarks view loads exactly the ids for which the details view's check sets the indicator (src/pages/Details.jsx:50-53). |
| `DetailsPage.CheckAgreesAfterToggle` | src/pages/Details.jsx:46-69 | After a successful toggle, re-checking the store yields the flag the toggle set. |
| `DetailsPage.FirstNamed` | src/pages/Details.jsx:159-161 | Gives -1 iff no nutrient has the name. Otherwise it gives the first position with exactly that name. |
| `DetailsPage.FindNutrient` | src/pages/Details.jsx:159-161 | Nothing iff no nutrient matches. Otherwise the amount of the first nutrient whose name matches exactly. |
| `DetailsPage.NutritionPanel` | src/pages/Details.jsx:153-193 | The block appears iff nutrition is present. Each of the four lines shows the amount of the first nutrient with exactly its name, and is empty iff no nutrient has that name. |

## Left out

- Rendering, routing, form state, `src/main.jsx`, `src/Components/RecipeInfo.jsx`, and the login and signup forms. They are view plumbing.
- The real `fetch`, the identity provider (`onAuthStateChanged`, sign-up, log-in, `signOut`) and the document store's wire protocol. These are foreign services. The network is an oracle parameter and the store is a map.
- The network oracle answers the same request the same way within one operation. Two calls with equal key values therefore get equal answers.
- `response.json()` failing to parse a body is not modelled. A response's body is taken as given.
- Store reads and writes (`getDoc`, `setDoc`, `updateDoc`) always resolve: a rejection for a signed-in user, such as denied permission or an offline client, is not modelled. The only store failure modelled is `updateDoc` on a missing document (`DocumentNotFound`), so `Auth.AddBookmark` always succeeds for a signed-in user, and the toggle lemmas that rely on it inherit this.
- The concurrency of `Promise.all` and React effect scheduling. The ids' chains are evaluated one by one. When several ids fail, the batch reports the first failing id in input order, not the first to reject in time.
- The read-then-write race in `addBookmark` is left out. Each store operation is atomic.
- The `isLoading` flag and the raw error-message text. A failure is recorded as its status, as a network failure, or as a `ReferenceError`.
- Health scores and nutrient amounts are integers, not floating point. NaN comparisons and full `parseInt` string semantics are left out. The result of `parseInt` is an `Option<int>`, with `None` for NaN.
- `scrollIntoView` and HTML injection of the summary are DOM behaviour. Only the scroll guard is kept.
- `recipeRefs` bookkeeping is abstracted into the `mounted` flags passed to `Listing.ScrollTarget`.
- Request URLs are built by unencoded string interpolation (`src/App.jsx:83`, `src/pages/Details.jsx:30`, `src/pages/Bookmarks.jsx:39`). Requests are modelled as structured values, so a query, type or id containing `&` or `=`, which would change the URL's parameters, is not modelled.

## Findings

| source | as written | input that shows it | evidently intended | confidence | as-written member | corrected member |
|---|---|---|---|---|---|---|
| src/pages/Bookmarks.jsx:55 | The last fallback reads `API_BACKUP2`, but line 13 declares `API_BACKKUP2`. In a module this throws a `ReferenceError` before any request, so the second backup key is never tried and the id's batch rejects. | One bookmarked id whose primary and backup requests both answer 402 while the second backup key would answer 200. | A third request with the second backup key, whose body is returned on success. | high, not executed | `BookmarksPage.FetchWithFallbackAsWritten`, with `BookmarksPage.SecondBackupSuccessIsLost` | `BookmarksPage.FetchWithFallback`, with `BookmarksPage.FallbackIsAnyFailureChain` |

=== FILE: auth.dfy ===
/**
 * The bookmark operations of the authentication context, over an abstract
 * per-user document store: collection "bookmarks", one document per user,
 * whose single field `bookmarks` is an array of recipe identifiers.
 */
module Auth {
  import opened Wrappers

  type Uid = string
  type RecipeId = string

  /** A user's document; `bookmarks` is `None` when the field is missing. */
  datatype BookmarkDoc = BookmarkDoc(bookmarks: Option<seq<RecipeId>>)

  /** The "bookmarks" collection, keyed by user id. */
  type Store = map<Uid, BookmarkDoc>

  /** The signed-in user (if any) and the store as they stand. */
  datatype Session = Session(user: Option<Uid>, store: Store)

  /** `Error("Not authenticated")`, and the store's refusal to update a missing document. */
  datatype BookmarkError = NotAuthenticated | DocumentNotFound

  /** The identifiers a document holds; a missing field reads as none. */
  function Saved(doc: BookmarkDoc): seq<RecipeId> {
    doc.bookmarks.GetOr([])
  }

  /** What the store holds for `uid`; no document reads as no bookmarks. */
  function SavedFor(st: Store, uid: Uid): seq<RecipeId> {
    if uid in st then Saved(st[uid]) else []
  }

  predicate NoDuplicates(xs: seq<RecipeId>) {
    forall i, j :: 0 <= i < j < |xs| ==> xs[i] != xs[j]
  }

  /** `arrayUnion(id)`: append `id` unless it is already there. */
  function ArrayUnion(xs: seq<RecipeId>, id: RecipeId): (ys: seq<RecipeId>)
    ensures forall x :: x in ys <==> x in xs || x == id
    ensures xs <= ys && |ys| <= |xs| + 1
    ensures NoDuplicates(xs) ==> NoDuplicates(ys)
  {
    if id in xs then xs else xs + [id]
  }

  /** `arrayRemove(id)`: drop every occurrence of `id`, keeping the order of the rest. */
  function ArrayRemove(xs: seq<RecipeId>, id: RecipeId): (ys: seq<RecipeId>)
    ensures forall x :: x in ys <==> x in xs && x != id
    ensures |ys| + multiset(xs)[id] == |xs|
    ensures NoDuplicates(xs) ==> NoDuplicates(ys)
    decreases |xs|
  {
    if |xs| == 0 then []
    else
      var rest := ArrayRemove(xs[1..], id);
      assert xs == [xs[0]] + xs[1..];
      assert NoDuplicates(xs) ==> NoDuplicates(xs[1..]) && xs[0] !in xs[1..] by {
        if NoDuplicates(xs) {
          forall k | 0 <= k < |xs[1..]| ensures xs[1..][k] != xs[0] {
            assert xs[1..][k] == xs[k + 1];
          }
        }
      }
      if xs[0] == id then rest else [xs[0]] + rest
  }

  /** Removing an identifier that was just appended to a list without it restores the list. */
  lemma {:induction false} RemoveUndoesAppend(xs: seq<RecipeId>, id: RecipeId)
    requires id !in xs
    ensures ArrayRemove(xs + [id], id) == xs
    decreases |xs|
  {
    if |xs| == 0 {
      assert [id][1..] == [];
    } else {
      assert (xs + [id])[1..] == xs[1..] + [id];
      RemoveUndoesAppend(xs[1..], id);
      assert xs == [xs[0]] + xs[1..];
    }
  }

  /** Every document other than `uid`'s is as it was, and no other document appears or vanishes. */
  ghost predicate OthersUnchanged(before: Store, after: Store, uid: Uid) {
    forall u :: u != uid ==> (u in before <==> u in after) && (u in before ==> before[u] == after[u])
  }

  /**
   * `addBookmark`: refuse without a user; otherwise read the user's
   * document and either union `id` into its field or create it holding
   * exactly `[id]`.
   */
  function AddBookmark(s: Session, id: RecipeId): (r: Result<Store, BookmarkError>)
    ensures s.user.None? <==> r.Failure?
    ensures r.Failure? ==> r.error == NotAuthenticated
    ensures r.Success? ==>
              var uid := s.user.value;
              && uid in r.value
              && r.value[uid].bookmarks.Some?
              && (forall x :: x in Saved(r.value[uid]) <==> x in SavedFor(s.store, uid) || x == id)
              && (uid !in s.store ==> r.value[uid] == BookmarkDoc(Some([id])))
              && (uid in s.store && NoDuplicates(Saved(s.store[uid])) ==> NoDuplicates(Saved(r.value[uid])))
              && (uid in s.store && id in Saved(s.store[uid]) ==> Saved(r.value[uid]) == Saved(s.store[uid]))
              && OthersUnchanged(s.store, r.value, uid)
  {
    match s.user
    case None => Failure(NotAuthenticated)
    case Some(uid) =>
      if uid in s.store then
        Success(s.store[uid := BookmarkDoc(Some(ArrayUnion(Saved(s.store[uid]), id)))])
      else
        Success(s.store[uid := BookmarkDoc(Some([id]))])
  }

  /**
   * `removeBookmark`: refuse without a user; otherwise update the user's
   * document with `arrayRemove(id)`.  Updating fails when the document does
   * not exist; it is never created here.
   */
  function RemoveBookmark(s: Session, id: RecipeId): (r: Result<Store, BookmarkError>)
    ensures s.user.None? ==> r == Failure(NotAuthenticated)
    ensures s.user.Some? && s.user.value !in s.store ==> r == Failure(DocumentNotFound)
    ensures r.Success? <==> s.user.Some? && s.user.value in s.store
    ensures r.Success? ==>
              var uid := s.user.value;
              && uid in s.store
              && r.value.Keys == s.store.Keys
              && (forall x :: x in Saved(r.value[uid]) <==> x in Saved(s.store[uid]) && x != id)
              && (id !in Saved(s.store[uid]) && s.store[uid].bookmarks.Some? ==> r.value == s.store)
              && OthersUnchanged(s.store, r.value, uid)
  {
    match s.user
    case None => Failure(NotAuthenticated)
    case Some(uid) =>
      if uid in s.store then
        var kept := ArrayRemove(Saved(s.store[uid]), id);
        assert id !in Saved(s.store[uid]) ==> kept == Saved(s.store[uid]) by {
          if id !in Saved(s.store[uid]) {
            RemoveAbsentIsIdentity(Saved(s.store[uid]), id);
          }
        }
        Success(s.store[uid := BookmarkDoc(Some(kept))])
      else
        Failure(DocumentNotFound)
  }

  lemma {:induction false} RemoveAbsentIsIdentity(xs: seq<RecipeId>, id: RecipeId)
    requires id !in xs
    ensures ArrayRemove(xs, id) == xs
    decreases |xs|
  {
    if |xs| > 0 {
      RemoveAbsentIsIdentity(xs[1..], id);
      assert xs == [xs[0]] + xs[1..];
    }
  }

  /**
   * Adding a new identifier to an existing list and then removing it gives
   * back exactly the store we started from.
   */
  lemma AddThenRemoveRestoresStore(s: Session, id: RecipeId)
    requires s.user.Some? && s.user.value in s.store
    requires s.store[s.user.value].bookmarks.Some? && id !in Saved(s.store[s.user.value])
    ensures AddBookmark(s, id).Success?
    ensures RemoveBookmark(Session(s.user, AddBookmark(s, id).value), id) == Success(s.store)
  {
    var uid := s.user.value;
    var xs := Saved(s.store[uid]);
    RemoveUndoesAppend(xs, id);
    var added := AddBookmark(s, id).value;
    assert added[uid] == BookmarkDoc(Some(xs + [id]));
    assert added[uid := BookmarkDoc(Some(xs))] == s.store;
  }
}

=== FILE: bookmarks.dfy ===
/**
 * The bookmarks view: it loads the signed-in user's bookmarked ids from the
 * store, then fetches the details of every id with a key fallback.
 */
module BookmarksPage {
  import opened Wrappers
  import opened Fetch
  import opened Auth

  /** The three credentials of this view, in the order they are tried. */
  datatype BookmarkKeys = BookmarkKeys(primary: Key, backup: Key, backup2: Key)

  function KeyOrder(keys: BookmarkKeys): seq<Key> {
    [keys.primary, keys.backup, keys.backup2]
  }

  /** The request `fetchWithApiKey` issues (no nutrition requested). */
  function DetailsRequest(id: RecipeId, key: Key): Request {
    Information(key, id, false)
  }

  /**
   * The per-id chain as it is written: `fetchWithApiKey` with the primary
   * key; if it throws (non-ok status or transport error), with the backup;
   * if that throws too, the handler reads the identifier `API_BACKUP2`,
   * which is never declared (the constant is spelled `API_BACKKUP2`), so a
   * `ReferenceError` is thrown and no third request is made.
   */
  function FetchWithFallbackAsWritten(net: Request -> Outcome<RecipeDetails>, id: RecipeId, keys: BookmarkKeys): (a: Attempt<RecipeDetails>)
    ensures 1 <= |a.tried| <= 2 && a.tried == KeyOrder(keys)[..|a.tried|]
    ensures |a.tried| == 2 <==> !Succeeded(net(DetailsRequest(id, keys.primary)))
    ensures a.result.Success? <==> Succeeded(net(DetailsRequest(id, a.tried[|a.tried| - 1])))
    ensures a.result.Success? ==> a.result.value == net(DetailsRequest(id, a.tried[|a.tried| - 1])).body
    ensures a.result.Failure? ==> a.result.error == ReferenceError
  {
    match Checked(net(DetailsRequest(id, keys.primary)))
    case Success(d) => Attempt([keys.primary], Success(d))
    case Failure(_) =>
      match Checked(net(DetailsRequest(id, keys.backup)))
      case Success(d) => Attempt([keys.primary, keys.backup], Success(d))
      case Failure(_) => Attempt([keys.primary, keys.backup], Failure(ReferenceError))
  }

  /**
   * The per-id chain as evidently intended: the same two steps, then a
   * third request with the second backup key, whose failure is not caught.
   */
  function FetchWithFallback(net: Request -> Outcome<RecipeDetails>, id: RecipeId, keys: BookmarkKeys): (a: Attempt<RecipeDetails>)
    ensures 1 <= |a.tried| <= 3 && a.tried == KeyOrder(keys)[..|a.tried|]
    ensures forall i :: 0 <= i < |a.tried| - 1 ==> !Succeeded(net(DetailsRequest(id, a.tried[i])))
    ensures a.result.Success? <==> Succeeded(net(DetailsRequest(id, a.tried[|a.tried| - 1])))
    ensures |a.tried| < 3 ==> a.result.Success?
    ensures a.result.Success? ==> a.result.value == net(DetailsRequest(id, a.tried[|a.tried| - 1])).body
  {
    match Checked(net(DetailsRequest(id, keys.primary)))
    case Success(d) => Attempt([keys.primary], Success(d))
    case Failure(_) =>
      match Checked(net(DetailsRequest(id, keys.backup)))
      case Success(d) => Attempt([keys.primary, keys.backup], Success(d))
      case Failure(_) =>
        Attempt([keys.primary, keys.backup, keys.backup2], Checked(net(DetailsRequest(id, keys.backup2))))
  }

  /** The intended per-id chain is the general policy over three keys that advances on every failure. */
  lemma FallbackIsAnyFailureChain(net: Request -> Outcome<RecipeDetails>, id: RecipeId, keys: BookmarkKeys)
    ensures FetchWithFallback(net, id, keys)
         == Chain(k => net(DetailsRequest(id, k)), KeyOrder(keys), o => true)
  {
  }

  /**
   * The chain as written agrees with the intended one whenever the intended
   * one stops within two keys; when it would go on to the second backup,
   * the written one has tried the same two keys and rejects instead.
   */
  lemma AsWrittenAgreesBeforeSecondBackup(net: Request -> Outcome<RecipeDetails>, id: RecipeId, keys: BookmarkKeys)
    ensures |FetchWithFallback(net, id, keys).tried| <= 2 ==>
              FetchWithFallbackAsWritten(net, id, keys) == FetchWithFallback(net, id, keys)
    ensures |FetchWithFallback(net, id, keys).tried| == 3 ==>
              FetchWithFallbackAsWritten(net, id, keys)
              == Attempt(FetchWithFallback(net, id, keys).tried[..2], Failure(ReferenceError))
  {
  }

  /**
   * The two chains part ways on an id that only the second backup key can
   * fetch: the intended chain returns its details, the written one rejects,
   * and a bookmarks list holding just that id keeps its previous details.
   */
  lemma SecondBackupSuccessIsLost(net: Request -> Outcome<RecipeDetails>, id: RecipeId, keys: BookmarkKeys, previous: seq<RecipeDetails>)
    requires !Succeeded(net(DetailsRequest(id, keys.primary)))
    requires !Succeeded(net(DetailsRequest(id, keys.backup)))
    requires Succeeded(net(DetailsRequest(id, keys.backup2)))
    ensures FetchWithFallback(net, id, keys).result == Success(net(DetailsRequest(id, keys.backup2)).body)
    ensures FetchWithFallbackAsWritten(net, id, keys).result == Failure(ReferenceError)
    ensures LoadDetails(BookmarksView([id], previous), net, keys) == BookmarksView([id], previous)
  {
  }

  /**
   * `Promise.all` over the per-id chains as written: the details in the
   * order of the ids when every chain succeeds, otherwise a rejection, which
   * can only be the `ReferenceError` of an id both keys failed for.
   */
  function FetchAllDetails(net: Request -> Outcome<RecipeDetails>, ids: seq<RecipeId>, keys: BookmarkKeys): (r: Result<seq<RecipeDetails>, Failure>)
    ensures r.Success? <==> forall i :: 0 <= i < |ids| ==> FetchWithFallbackAsWritten(net, ids[i], keys).result.Success?
    ensures r.Failure? <==> exists i :: 0 <= i < |ids| && !Succeeded(net(DetailsRequest(ids[i], keys.primary)))
                                                    && !Succeeded(net(DetailsRequest(ids[i], keys.backup)))
    ensures r.Success? ==> |r.value| == |ids|
    ensures r.Success? ==> forall i :: 0 <= i < |ids| ==> r.value[i] == FetchWithFallbackAsWritten(net, ids[i], keys).result.value
    ensures r.Failure? ==> r.error == ReferenceError
    decreases |ids|
  {
    if |ids| == 0 then Success([])
    else
      match FetchWithFallbackAsWritten(net, ids[0], keys).result
      case Failure(e) => Failure(e)
      case Success(d) =>
        match FetchAllDetails(net, ids[1..], keys)
        case Failure(e) =>
          assert forall i :: 0 <= i < |ids[1..]| ==> ids[1..][i] == ids[i + 1];
          Failure(e)
        case Success(ds) =>
          assert forall i :: 0 < i < |ids| ==> ids[i] == ids[1..][i - 1];
          Success([d] + ds)
  }

  /** The requests one id's chain issues, in the order it issues them. */
  function RequestsFor(id: RecipeId, tried: seq<Key>): seq<Request> {
    seq(|tried|, j requires 0 <= j < |tried| => DetailsRequest(id, tried[j]))
  }

  /**
   * Every request the batch issues, id by id: each id's primary request,
   * and its backup request exactly when the primary failed; nothing with
   * any other key, so never one with the second backup key.
   */
  function CallsIssued(net: Request -> Outcome<RecipeDetails>, ids: seq<RecipeId>, keys: BookmarkKeys): (calls: seq<Request>)
    ensures |ids| <= |calls| <= 2 * |ids|
    ensures |calls| == |ids| <==> forall i :: 0 <= i < |ids| ==> Succeeded(net(DetailsRequest(ids[i], keys.primary)))
    ensures forall i :: 0 <= i < |ids| ==> DetailsRequest(ids[i], keys.primary) in calls
    ensures forall i :: 0 <= i < |ids| && !Succeeded(net(DetailsRequest(ids[i], keys.primary))) ==>
              DetailsRequest(ids[i], keys.backup) in calls
    ensures forall r :: r in calls ==>
              r.Information? && r.recipeId in ids && !r.includeNutrition && (r.key == keys.primary || r.key == keys.backup)
    decreases |ids|
  {
    if |ids| == 0 then []
    else
      var a := FetchWithFallbackAsWritten(net, ids[0], keys);
      var rest := CallsIssued(net, ids[1..], keys);
      assert forall i :: 0 < i < |ids| ==> ids[i] == ids[1..][i - 1];
      assert forall r :: r in RequestsFor(ids[0], a.tried) ==> r.recipeId == ids[0];
      assert DetailsRequest(ids[0], keys.primary) == RequestsFor(ids[0], a.tried)[0];
      assert !Succeeded(net(DetailsRequest(ids[0], keys.primary))) ==>
               DetailsRequest(ids[0], keys.backup) == RequestsFor(ids[0], a.tried)[1];
      RequestsFor(ids[0], a.tried) + rest
  }

  /** The view's state. */
  datatype BookmarksView = BookmarksView(bookmarkedRecipes: seq<RecipeId>, recipesDetails: seq<RecipeDetails>)

  /**
   * `fetchBookmarkedRecipes`: with a user whose document exists, the list
   * becomes the document's field (none when the field is missing);
   * otherwise nothing changes.
   */
  function LoadBookmarked(v: BookmarksView, s: Session): (v': BookmarksView)
    ensures v'.recipesDetails == v.recipesDetails
    ensures s.user.Some? && s.user.value in s.store ==> v'.bookmarkedRecipes == SavedFor(s.store, s.user.value)
    ensures s.user.Some? && s.user.value in s.store && s.store[s.user.value].bookmarks.None? ==> v'.bookmarkedRecipes == []
    ensures s.user.None? || s.user.value !in s.store ==> v' == v
  {
    match s.user
    case None => v
    case Some(uid) =>
      if uid in s.store then BookmarksView(Saved(s.store[uid]), v.recipesDetails) else v
  }

  /**
   * The details effect, with the chain as written: nothing happens for an
   * empty list; otherwise the whole batch replaces `recipesDetails`, or a
   * rejection leaves it as it was.
   */
  function LoadDetails(v: BookmarksView, net: Request -> Outcome<RecipeDetails>, keys: BookmarkKeys): (v': BookmarksView)
    ensures v'.bookmarkedRecipes == v.bookmarkedRecipes
    ensures |v.bookmarkedRecipes| == 0 ==> v' == v
    ensures FetchAllDetails(net, v.bookmarkedRecipes, keys).Failure? ==> v' == v
    ensures |v.bookmarkedRecipes| > 0 && FetchAllDetails(net, v.bookmarkedRecipes, keys).Success? ==>
              && |v'.recipesDetails| == |v.bookmarkedRecipes|
              && forall i :: 0 <= i < |v.bookmarkedRecipes| ==>
                   v'.recipesDetails[i] == FetchWithFallbackAsWritten(net, v.bookmarkedRecipes[i], keys).result.value
  {
    if |v.bookmarkedRecipes| > 0 then
      match FetchAllDetails(net, v.bookmarkedRecipes, keys)
      case Success(ds) => BookmarksView(v.bookmarkedRecipes, ds)
      case Failure(_) => v
    else v
  }

  /**
   * If both keys fail for some id, that id's chain makes exactly two
   * requests and rejects, no request uses the second backup key, and the
   * view keeps its previous details.
   */
  lemma ExhaustedIdKeepsDetails(v: BookmarksView, net: Request -> Outcome<RecipeDetails>, keys: BookmarkKeys, i: int)
    requires 0 <= i < |v.bookmarkedRecipes|
    requires !Succeeded(net(DetailsRequest(v.bookmarkedRecipes[i], keys.primary)))
    requires !Succeeded(net(DetailsRequest(v.bookmarkedRecipes[i], keys.backup)))
    ensures FetchWithFallbackAsWritten(net, v.bookmarkedRecipes[i], keys)
         == Attempt([keys.primary, keys.backup], Failure(ReferenceError))
    ensures keys.backup2 != keys.primary && keys.backup2 != keys.backup ==>
              DetailsRequest(v.bookmarkedRecipes[i], keys.backup2) !in CallsIssued(net, v.bookmarkedRecipes, keys)
    ensures LoadDetails(v, net, keys) == v
  {
  }
}

=== FILE: details.dfy ===
/**
 * The details view: the two-key details fetch, the bookmark indicator and
 * its toggle, and the nutrition lines.
 */
module DetailsPage {
  import opened Wrappers
  import opened Fetch
  import opened Auth
  import BookmarksPage

  /** The request the details view issues for `id` (nutrition included). */
  function NutritionRequest(id: RecipeId, key: Key): Request {
    Information(key, id, true)
  }

  /**
   * `fetchRecipeDetails`: the primary key; on any non-ok response the
   * backup key, whose response is parsed and kept whatever its status.
   * A transport error on either call rejects the effect.
   */
  function FetchRecipeDetails(net: Request -> Outcome<RecipeDetails>, id: RecipeId, primary: Key, backup: Key): (a: Attempt<RecipeDetails>)
    ensures 1 <= |a.tried| <= 2 && a.tried[0] == primary
    ensures |a.tried| == 2 <==> net(NutritionRequest(id, primary)).Responded? && !Succeeded(net(NutritionRequest(id, primary)))
    ensures |a.tried| == 2 ==> a.tried[1] == backup
    ensures a.result.Failure? <==> net(NutritionRequest(id, a.tried[|a.tried| - 1])).NetworkError?
    ensures a.result.Failure? ==> a.result.error == NetworkFailure
    ensures a.result.Success? ==> a.result.value == net(NutritionRequest(id, a.tried[|a.tried| - 1])).body
  {
    match net(NutritionRequest(id, primary))
    case NetworkError => Attempt([primary], Failure(NetworkFailure))
    case Responded(status, body) =>
      if IsOk(status) then Attempt([primary], Success(body))
      else
        match net(NutritionRequest(id, backup))
        case NetworkError => Attempt([primary, backup], Failure(NetworkFailure))
        case Responded(_, body2) => Attempt([primary, backup], Success(body2))
  }

  /**
   * Compared with the general two-key policy that advances on any non-ok
   * response, the details fetch tries the same keys, and gets the same
   * result except when the backup answers with a non-ok status: the policy
   * then fails with that status, the details fetch keeps the body.
   */
  lemma DetailsFetchVersusChain(net: Request -> Outcome<RecipeDetails>, id: RecipeId, primary: Key, backup: Key)
    ensures var d := FetchRecipeDetails(net, id, primary, backup);
            var c := Chain(k => net(NutritionRequest(id, k)), [primary, backup], (o: Outcome<RecipeDetails>) => o.Responded?);
            var second := net(NutritionRequest(id, backup));
            && d.tried == c.tried
            && (|d.tried| == 2 && second.Responded? && !Succeeded(second) ==>
                  d.result == Success(second.body) && c.result == Failure(HttpStatus(second.status)))
            && (!(|d.tried| == 2 && second.Responded? && !Succeeded(second)) ==> d.result == c.result)
  {
  }

  /** The backup's status is never looked at: changing it changes nothing. */
  lemma BackupStatusIsIgnored(net: Request -> Outcome<RecipeDetails>, id: RecipeId, primary: Key, backup: Key, status: int)
    requires primary != backup
    requires net(NutritionRequest(id, backup)).Responded?
    ensures var net' := (r: Request) => if r == NutritionRequest(id, backup)
                                        then Responded(status, net(r).body) else net(r);
            FetchRecipeDetails(net', id, primary, backup) == FetchRecipeDetails(net, id, primary, backup)
  {
  }

  /** The view's state: the fetched details (`null` while loading) and the indicator. */
  datatype DetailsView = DetailsView(recipeDetails: Option<RecipeDetails>, isBookmarked: bool)

  /** The details effect settles: a body is shown, a rejection leaves the view loading as it was. */
  function LoadDetails(v: DetailsView, net: Request -> Outcome<RecipeDetails>, id: RecipeId, primary: Key, backup: Key): (v': DetailsView)
    ensures v'.isBookmarked == v.isBookmarked
    ensures FetchRecipeDetails(net, id, primary, backup).result.Failure? ==> v' == v
    ensures FetchRecipeDetails(net, id, primary, backup).result.Success? ==>
              v'.recipeDetails == Some(FetchRecipeDetails(net, id, primary, backup).result.value)
  {
    match FetchRecipeDetails(net, id, primary, backup).result
    case Success(d) => DetailsView(Some(d), v.isBookmarked)
    case Failure(_) => v
  }

  /**
   * `checkBookmark`: with a user, the indicator becomes whether the user's
   * document exists and lists `id`.  A document without the field makes
   * `bookmarks.includes` throw, which leaves the indicator as it was, and
   * so does the absence of a user.
   */
  function CheckBookmark(v: DetailsView, s: Session, id: RecipeId): (v': DetailsView)
    ensures v'.recipeDetails == v.recipeDetails
    ensures s.user.None? ==> v' == v
    ensures s.user.Some? && (s.user.value !in s.store || s.store[s.user.value].bookmarks.Some?) ==>
              (v'.isBookmarked <==> id in SavedFor(s.store, s.user.value))
    ensures s.user.Some? && s.user.value in s.store && s.store[s.user.value].bookmarks.None? ==> v' == v
  {
    match s.user
    case None => v
    case Some(uid) =>
      if uid !in s.store then DetailsView(v.recipeDetails, false)
      else
        match s.store[uid].bookmarks
        case None => v
        case Some(ids) => DetailsView(v.recipeDetails, id in ids)
  }

  /** What a toggle leaves behind: the store, the view, and the write's error if it threw. */
  datatype Toggled = Toggled(store: Store, view: DetailsView, error: Option<BookmarkError>)

  /**
   * `handleBookmark`: remove when flagged, add otherwise; the indicator is
   * negated only once the awaited write has resolved.  A write that throws
   * leaves both the store and the indicator untouched.
   */
  function HandleBookmark(v: DetailsView, s: Session, id: RecipeId): (t: Toggled)
    ensures t.view.recipeDetails == v.recipeDetails
    ensures t.error.None? ==> t.view.isBookmarked == !v.isBookmarked
    ensures t.error.Some? ==> t.view == v && t.store == s.store
    ensures s.user.None? ==> t.error == Some(NotAuthenticated)
    ensures v.isBookmarked && t.error.None? ==> id !in SavedFor(t.store, s.user.value)
    ensures !v.isBookmarked && t.error.None? ==> id in SavedFor(t.store, s.user.value)
    ensures t.error.None? ==> s.user.Some? && s.user.value in t.store
    ensures t.error.None? ==> OthersUnchanged(s.store, t.store, s.user.value)
    ensures t.error.None? ==> forall x :: x != id ==>
              (x in SavedFor(t.store, s.user.value) <==> x in SavedFor(s.store, s.user.value))
    ensures v.isBookmarked ==> (t.error.None? <==> RemoveBookmark(s, id).Success?)
    ensures !v.isBookmarked ==> (t.error.None? <==> AddBookmark(s, id).Success?)
  {
    var write := if v.isBookmarked then RemoveBookmark(s, id) else AddBookmark(s, id);
    match write
    case Success(st) => Toggled(st, DetailsView(v.recipeDetails, !v.isBookmarked), None)
    case Failure(e) => Toggled(s.store, v, Some(e))
  }

  /** Two toggles whose writes both succeed bring the indicator back. */
  lemma ToggleTwiceRestoresFlag(v: DetailsView, s: Session, id: RecipeId)
    requires HandleBookmark(v, s, id).error.None?
    requires var t := HandleBookmark(v, s, id);
             HandleBookmark(t.view, Session(s.user, t.store), id).error.None?
    ensures var t := HandleBookmark(v, s, id);
            HandleBookmark(t.view, Session(s.user, t.store), id).view == v
  {
  }

  /**
   * For a signed-in user whose list lacks `id`, bookmarking and then
   * un-bookmarking succeeds twice and restores both the indicator and the
   * store exactly.
   */
  lemma ToggleTwiceRestoresStore(v: DetailsView, s: Session, id: RecipeId)
    requires !v.isBookmarked
    requires s.user.Some? && s.user.value in s.store
    requires s.store[s.user.value].bookmarks.Some? && id !in Saved(s.store[s.user.value])
    ensures var t := HandleBookmark(v, s, id);
            var t2 := HandleBookmark(t.view, Session(s.user, t.store), id);
            t.error.None? && t2.error.None? && t2.view == v && t2.store == s.store
  {
    AddThenRemoveRestoresStore(s, id);
  }

  /** After a successful toggle, re-reading the store agrees with the indicator. */
  lemma CheckAgreesAfterToggle(v: DetailsView, s: Session, id: RecipeId)
    requires HandleBookmark(v, s, id).error.None?
    ensures var t := HandleBookmark(v, s, id);
            CheckBookmark(t.view, Session(s.user, t.store), id) == t.view
  {
  }

  /**
   * For a signed-in user with no document yet, toggling a recipe that is
   * not bookmarked twice succeeds and restores the indicator, but the
   * document the first toggle created stays behind, empty: the saved ids
   * are restored, the store is not.
   */
  lemma ToggleTwiceWithoutDocument(v: DetailsView, s: Session, id: RecipeId)
    requires !v.isBookmarked
    requires s.user.Some? && s.user.value !in s.store
    ensures var t := HandleBookmark(v, s, id);
            var t2 := HandleBookmark(t.view, Session(s.user, t.store), id);
            && t.error.None? && t2.error.None? && t2.view == v
            && SavedFor(t2.store, s.user.value) == SavedFor(s.store, s.user.value)
            && t2.store == s.store[s.user.value := BookmarkDoc(Some([]))]
  {
    assert [id][1..] == [];
    assert ArrayRemove([id], id) == [];
  }

  /**
   * The ids the bookmarks view loads are exactly the ids for which the
   * details view's check sets the indicator.
   */
  lemma LoadedIdsAreChecked(bv: BookmarksPage.BookmarksView, dv: DetailsView, s: Session, id: RecipeId)
    requires s.user.Some? && s.user.value in s.store && s.store[s.user.value].bookmarks.Some?
    ensures id in BookmarksPage.LoadBookmarked(bv, s).bookmarkedRecipes <==> CheckBookmark(dv, s, id).isBookmarked
  {
  }

  /** The position of the first nutrient called `name`, or -1. */
  function FirstNamed(ns: seq<Nutrient>, name: string): (i: int)
    ensures -1 <= i < |ns|
    ensures i == -1 <==> forall j :: 0 <= j < |ns| ==> ns[j].name != name
    ensures 0 <= i ==> ns[i].name == name && forall j :: 0 <= j < i ==> ns[j].name != name
    decreases |ns|
  {
    if |ns| == 0 then -1
    else if ns[0].name == name then 0
    else
      var k := FirstNamed(ns[1..], name);
      assert forall j :: 0 < j < |ns| ==> ns[j] == ns[1..][j - 1];
      if k == -1 then -1 else k + 1
  }

  /** `nutrients.find(n => n.name === name)?.amount`. */
  function FindNutrient(ns: seq<Nutrient>, name: string): (a: Option<int>)
    ensures a.None? <==> forall j :: 0 <= j < |ns| ==> ns[j].name != name
    ensures a.Some? ==> exists i :: 0 <= i < |ns| && ns[i].name == name && ns[i].amount == a.value
                                    && forall j :: 0 <= j < i ==> ns[j].name != name
  {
    var i := FirstNamed(ns, name);
    if i == -1 then None else Some(ns[i].amount)
  }

  /** The four lines of the nutrition block. */
  datatype NutritionLines = NutritionLines(calories: Option<int>, protein: Option<int>, fat: Option<int>, carbohydrates: Option<int>)

  /** The nutrition block: shown only when the details carry nutrition. */
  function NutritionPanel(d: RecipeDetails): (p: Option<NutritionLines>)
    ensures p.Some? <==> d.nutrition.Some?
    ensures p.Some? ==> p.value.calories == FindNutrient(d.nutrition.value, "Calories")
    ensures p.Some? ==> p.value.protein == FindNutrient(d.nutrition.value, "Protein")
    ensures p.Some? ==> p.value.fat == FindNutrient(d.nutrition.value, "Fat")
    ensures p.Some? ==> p.value.carbohydrates == FindNutrient(d.nutrition.value, "Carbohydrates")
    ensures p.Some? ==> (p.value.calories.None? <==> forall j :: 0 <= j < |d.nutrition.value| ==> d.nutrition.value[j].name != "Calories")
    ensures p.Some? ==> (p.value.protein.None? <==> forall j :: 0 <= j < |d.nutrition.value| ==> d.nutrition.value[j].name != "Protein")
    ensures p.Some? ==> (p.value.fat.None? <==> forall j :: 0 <= j < |d.nutrition.value| ==> d.nutrition.value[j].name != "Fat")
    ensures p.Some? ==> (p.value.carbohydrates.None? <==> forall j :: 0 <= j < |d.nutrition.value| ==> d.nutrition.value[j].name != "Carbohydrates")
  {
    match d.nutrition
    case None => None
    case Some(ns) =>
      Some(NutritionLines(FindNutrient(ns, "Calories"), FindNutrient(ns, "Protein"),
                          FindNutrient(ns, "Fat"), FindNutrient(ns, "Carbohydrates")))
  }
}

=== FILE: fetch.dfy ===
/**
 * The recipe-data HTTP API as seen by the application: requests, responses
 * and the credential-fallback policies built on top of them.
 *
 * The network itself is an oracle: a function from a request to the outcome
 * of issuing it.  Within one operation the same request therefore always
 * gets the same answer.
 */
module Fetch {
  import opened Wrappers

  /** An API credential (`apiKey=` query parameter). */
  type Key = string

  /** The status the recipe API answers with once a credential's quota is used up. */
  const QuotaExceeded: int := 402

  /** `Response.ok`: the status lies in the 2xx range. */
  predicate IsOk(status: int) {
    200 <= status <= 299
  }

  /** What a `fetch` call yields: a response, or a rejection from the transport. */
  datatype Outcome<B> = Responded(status: int, body: B) | NetworkError

  predicate Succeeded<B>(o: Outcome<B>) {
    o.Responded? && IsOk(o.status)
  }

  predicate IsQuotaExceeded<B>(o: Outcome<B>) {
    o.Responded? && o.status == QuotaExceeded
  }

  /**
   * Why a fetch step failed: a non-ok status, a transport error, or a
   * `ReferenceError` thrown by evaluating an identifier that was never
   * declared (no request is made in that case).
   */
  datatype Failure = HttpStatus(status: int) | NetworkFailure | ReferenceError

  /** One entry of `nutrition.nutrients`; amounts are modelled as integers. */
  datatype Nutrient = Nutrient(name: string, amount: int)

  /**
   * The body of `/recipes/{id}/information`: the parts the model uses.
   * `nutrition` is present only when nutrition was requested.
   */
  datatype RecipeDetails = RecipeDetails(id: int, title: string, readyInMinutes: int, servings: int,
                                         nutrition: Option<seq<Nutrient>>)

  /** The requests the application issues; the key is part of the request. */
  datatype Request =
    | RandomRecipes(key: Key, number: nat)
      // `/recipes/complexSearch`; `instructionsRequired` and
      // `addRecipeInformation` are always `true` and are not represented
    | ComplexSearch(key: Key, query: string, dishType: string, minCalories: int, maxCalories: int, number: nat)
    | Information(key: Key, recipeId: string, includeNutrition: bool)

  /**
   * The `if (!response.ok) throw new Error(... response.status)` step that
   * follows a `fetch`: an ok response yields its body, anything else fails.
   */
  function Checked<B>(o: Outcome<B>): (r: Result<B, Failure>)
    ensures r.Success? <==> Succeeded(o)
    ensures r.Success? ==> r.value == o.body
    ensures o.Responded? && r.Failure? ==> r.error == HttpStatus(o.status)
    ensures o.NetworkError? ==> r == Failure(NetworkFailure)
  {
    match o
    case NetworkError => Failure(NetworkFailure)
    case Responded(status, body) =>
      if IsOk(status) then Success(body) else Failure(HttpStatus(status))
  }

  /** The keys a fallback policy used, in order, and what it produced. */
  datatype Attempt<B> = Attempt(tried: seq<Key>, result: Result<B, Failure>)

  /**
   * The general ordered-credential policy: try the keys in order; stop at the
   * first success, at a failure that `advance` does not accept as a reason to
   * move on, or when the keys run out.  The result is the checked outcome of
   * the last key tried.  Each call site below is shown to be an instance of
   * this policy, or shown not to be one.
   */
  function Chain<B>(net: Key -> Outcome<B>, keys: seq<Key>, advance: Outcome<B> -> bool): (a: Attempt<B>)
    requires |keys| > 0
    ensures 1 <= |a.tried| <= |keys|
    ensures a.tried == keys[..|a.tried|]
    ensures a.result == Checked(net(a.tried[|a.tried| - 1]))
    ensures forall i :: 0 <= i < |a.tried| - 1 ==> !Succeeded(net(a.tried[i])) && advance(net(a.tried[i]))
    ensures |a.tried| < |keys| ==>
              Succeeded(net(a.tried[|a.tried| - 1])) || !advance(net(a.tried[|a.tried| - 1]))
    decreases |keys|
  {
    var o := net(keys[0]);
    if Succeeded(o) || !advance(o) || |keys| == 1 then
      Attempt([keys[0]], Checked(o))
    else
      var rest := Chain(net, keys[1..], advance);
      Attempt([keys[0]] + rest.tried, rest.result)
  }

  /**
   * The characterisation in `Chain`'s contract determines the attempt: any
   * attempt with the same shape is the one `Chain` produces.
   */
  lemma {:induction false} ChainIsDetermined<B>(net: Key -> Outcome<B>, keys: seq<Key>, advance: Outcome<B> -> bool, a: Attempt<B>)
    requires |keys| > 0
    requires 1 <= |a.tried| <= |keys|
    requires a.tried == keys[..|a.tried|]
    requires a.result == Checked(net(a.tried[|a.tried| - 1]))
    requires forall i :: 0 <= i < |a.tried| - 1 ==> !Succeeded(net(a.tried[i])) && advance(net(a.tried[i]))
    requires |a.tried| < |keys| ==>
               Succeeded(net(a.tried[|a.tried| - 1])) || !advance(net(a.tried[|a.tried| - 1]))
    ensures a == Chain(net, keys, advance)
    decreases |keys|
  {
    var o := net(keys[0]);
    if Succeeded(o) || !advance(o) || |keys| == 1 {
      assert a.tried[0] == keys[0];
      assert |a.tried| == 1;
    } else {
      assert |a.tried| > 1;
      var a' := Attempt(a.tried[1..], a.result);
      assert a'.tried == keys[1..][..|a'.tried|];
      forall i | 0 <= i < |a'.tried| - 1
        ensures !Succeeded(net(a'.tried[i])) && advance(net(a'.tried[i]))
      {
        assert a'.tried[i] == a.tried[i + 1];
      }
      ChainIsDetermined(net, keys[1..], advance, a');
      assert a.tried == [keys[0]] + a'.tried;
    }
  }
}

=== FILE: listing.dfy ===
/**
 * The listing view (`App`): the initial random listing with its quota
 * fallback, the filtered search, which of the two lists is displayed, and
 * the two "champion" cards derived from the displayed list.
 */
module Listing {
  import opened Wrappers
  import opened Fetch

  /**
   * A recipe summary.  `ref` stands for the JavaScript object's identity:
   * `findIndex(recipe => recipe === champion)` compares references, so two
   * summaries with equal fields but different `ref` are different entries.
   * Health scores are modelled as integers.
   */
  datatype Recipe = Recipe(ref: nat, id: int, title: string, readyInMinutes: int, healthScore: int)

  /** A listing response body: `json.recipes` / `data.results`, possibly absent. */
  type ListBody = Option<seq<Recipe>>

  /** `number=15` on both the random listing and the search. */
  const PageSize: nat := 15

  /** The default calorie bounds of the search form. */
  const DefaultMinCalories: int := 0
  const DefaultMaxCalories: int := 1000

  // ---------------------------------------------------------------------
  // Fetching the listing
  // ---------------------------------------------------------------------

  /**
   * `fetchAllRecipeData`'s request logic: the primary key, then the backup
   * key only if the primary answered "quota exceeded".  Any other failure
   * of the primary is final.
   */
  function FetchAllRecipeData(net: Request -> Outcome<ListBody>, primary: Key, backup: Key): (a: Attempt<ListBody>)
    ensures 1 <= |a.tried| <= 2 && a.tried[0] == primary
    ensures |a.tried| == 2 <==> IsQuotaExceeded(net(RandomRecipes(primary, PageSize)))
    ensures |a.tried| == 2 ==> a.tried[1] == backup
    ensures a.result.Success? <==> Succeeded(net(RandomRecipes(a.tried[|a.tried| - 1], PageSize)))
    ensures a.result.Success? ==> a.result.value == net(RandomRecipes(a.tried[|a.tried| - 1], PageSize)).body
    ensures |a.tried| == 2 && net(RandomRecipes(backup, PageSize)).Responded? && a.result.Failure? ==>
              a.result.error == HttpStatus(net(RandomRecipes(backup, PageSize)).status)
  {
    match net(RandomRecipes(primary, PageSize))
    case NetworkError => Attempt([primary], Failure(NetworkFailure))
    case Responded(status, body) =>
      if IsOk(status) then
        Attempt([primary], Success(body))
      else if status == QuotaExceeded then
        Attempt([primary, backup], Checked(net(RandomRecipes(backup, PageSize))))
      else
        Attempt([primary], Failure(HttpStatus(status)))
  }

  /** The listing fetch is the general policy over two keys that advances only on quota exhaustion. */
  lemma ListingIsQuotaChain(net: Request -> Outcome<ListBody>, primary: Key, backup: Key)
    ensures FetchAllRecipeData(net, primary, backup)
         == Chain(k => net(RandomRecipes(k, PageSize)), [primary, backup], o => IsQuotaExceeded(o))
  {
  }

  // ---------------------------------------------------------------------
  // Search parameters
  // ---------------------------------------------------------------------

  /**
   * `parseInt(x) || default`, given what `parseInt` produced (`None` for
   * NaN).  Both NaN and 0 are falsy, so both give way to the default.
   */
  function OrDefault(parsed: Option<int>, default: int): (n: int)
    ensures n != default ==> parsed == Some(n)
    ensures parsed.Some? && parsed.value != 0 ==> n == parsed.value
    ensures parsed.None? || parsed == Some(0) ==> n == default
  {
    match parsed
    case Some(v) => if v != 0 then v else default
    case None => default
  }

  /** The `minCalories` sent: the parsed value, or 0 when nothing parses. */
  function MinCaloriesSent(parsed: Option<int>): (n: int)
    ensures n == (if parsed.Some? then parsed.value else 0)
  {
    OrDefault(parsed, DefaultMinCalories)
  }

  /** The `maxCalories` sent: the parsed value, or 1000 when it is NaN or 0. */
  function MaxCaloriesSent(parsed: Option<int>): (n: int)
    ensures parsed.Some? && parsed.value != 0 ==> n == parsed.value
    ensures parsed == Some(0) ==> n == 1000
    ensures parsed.None? ==> n == 1000
    ensures n != 0
  {
    OrDefault(parsed, DefaultMaxCalories)
  }

  /** The `complexSearch` request `searchItems` issues (primary key only, no fallback). */
  function SearchRequest(key: Key, query: string, dishType: string, minParsed: Option<int>, maxParsed: Option<int>): (r: Request)
    ensures r.ComplexSearch? && r.key == key && r.number == PageSize
    ensures r.query == query && r.dishType == dishType
    ensures r.minCalories == MinCaloriesSent(minParsed) && r.maxCalories == MaxCaloriesSent(maxParsed)
    ensures minParsed.Some? ==> r.minCalories == minParsed.value
    ensures minParsed.None? ==> r.minCalories == DefaultMinCalories
    ensures maxParsed.Some? && maxParsed.value != 0 ==> r.maxCalories == maxParsed.value
    ensures maxParsed.None? || maxParsed == Some(0) ==> r.maxCalories == DefaultMaxCalories
  {
    ComplexSearch(key, query, dishType, MinCaloriesSent(minParsed), MaxCaloriesSent(maxParsed), PageSize)
  }

  // ---------------------------------------------------------------------
  // The page state and which list is displayed
  // ---------------------------------------------------------------------

  /** The state of `App` that the displayed list depends on. */
  datatype ListingPage = ListingPage(recipes: seq<Recipe>, filteredResults: seq<Recipe>, isFiltered: bool, error: Option<Failure>)

  const InitialPage: ListingPage := ListingPage([], [], false, None)

  /** `displayRecipes`. */
  function Display(p: ListingPage): (xs: seq<Recipe>)
    ensures p.isFiltered ==> xs == p.filteredResults
    ensures !p.isFiltered ==> xs == p.recipes
  {
    if p.isFiltered then p.filteredResults else p.recipes
  }

  /**
   * The state after `fetchAllRecipeData` settles with result `r`: the
   * filter flag and the error are cleared first; a body replaces the
   * unfiltered list, a failure is recorded as the error.
   */
  function AfterLoad(p: ListingPage, r: Result<ListBody, Failure>): (p': ListingPage)
    ensures !p'.isFiltered && Display(p') == p'.recipes
    ensures p'.filteredResults == p.filteredResults
    ensures r.Success? ==> p'.recipes == r.value.GetOr([]) && p'.error.None?
    ensures r.Failure? ==> p'.recipes == p.recipes && p'.error == Some(r.error)
  {
    match r
    case Success(body) => ListingPage(body.GetOr([]), p.filteredResults, false, None)
    case Failure(e) => ListingPage(p.recipes, p.filteredResults, false, Some(e))
  }

  /**
   * The state after `searchItems` settles with result `r`: the error is
   * cleared first; only a successful search sets the filter flag.
   */
  function AfterSearch(p: ListingPage, r: Result<ListBody, Failure>): (p': ListingPage)
    ensures p'.recipes == p.recipes
    ensures r.Success? ==> p'.isFiltered && Display(p') == r.value.GetOr([]) && p'.error.None?
    ensures r.Failure? ==> p'.isFiltered == p.isFiltered && p'.filteredResults == p.filteredResults
                           && Display(p') == Display(p) && p'.error == Some(r.error)
  {
    match r
    case Success(body) => ListingPage(p.recipes, body.GetOr([]), true, None)
    case Failure(e) => ListingPage(p.recipes, p.filteredResults, p.isFiltered, Some(e))
  }

  /** The whole initial load against the network oracle. */
  function InitialLoad(p: ListingPage, net: Request -> Outcome<ListBody>, primary: Key, backup: Key): (p': ListingPage)
    ensures !p'.isFiltered
    ensures p'.error.None? <==> FetchAllRecipeData(net, primary, backup).result.Success?
  {
    AfterLoad(p, FetchAllRecipeData(net, primary, backup).result)
  }

  /** The whole search against the network oracle: one request, checked once. */
  function SearchItems(p: ListingPage, net: Request -> Outcome<ListBody>, key: Key, query: string,
                       dishType: string, minParsed: Option<int>, maxParsed: Option<int>): (p': ListingPage)
    ensures var o := net(SearchRequest(key, query, dishType, minParsed, maxParsed));
            && (Succeeded(o) ==> p'.isFiltered && Display(p') == o.body.GetOr([]))
            && (!Succeeded(o) ==> Display(p') == Display(p) && p'.isFiltered == p.isFiltered)
            && (o.Responded? && !Succeeded(o) ==> p'.error == Some(HttpStatus(o.status)))
  {
    AfterSearch(p, Checked(net(SearchRequest(key, query, dishType, minParsed, maxParsed))))
  }

  /** A settled fetch on the listing page, with its result. */
  datatype PageEvent = Loaded(load: Result<ListBody, Failure>) | Searched(search: Result<ListBody, Failure>)

  function Replay(p: ListingPage, events: seq<PageEvent>): ListingPage
    decreases |events|
  {
    if |events| == 0 then p
    else
      var last := events[|events| - 1];
      var before := Replay(p, events[..|events| - 1]);
      match last
      case Loaded(r) => AfterLoad(before, r)
      case Searched(r) => AfterSearch(before, r)
  }

  /** Event `i` is a successful search with no load after it. */
  ghost predicate FilterStands(events: seq<PageEvent>, i: int) {
    && 0 <= i < |events|
    && events[i].Searched? && events[i].search.Success?
    && forall j :: i < j < |events| ==> !events[j].Loaded?
  }

  /**
   * Starting from the initial state, the filtered list is displayed iff some
   * successful search has happened since the last load.
   */
  lemma {:induction false} FilteredIffSearchSinceLoad(events: seq<PageEvent>)
    ensures Replay(InitialPage, events).isFiltered <==> exists i :: FilterStands(events, i)
    decreases |events|
  {
    if |events| > 0 {
      var n := |events| - 1;
      var init := events[..n];
      FilteredIffSearchSinceLoad(init);
      match events[n]
      case Loaded(r) =>
        assert !Replay(InitialPage, events).isFiltered;
        assert forall i :: !FilterStands(events, i) by {
          forall i | 0 <= i < |events| && events[i].Searched? && events[i].search.Success?
            ensures !(forall j :: i < j < |events| ==> !events[j].Loaded?)
          {
            assert i < n;
          }
        }
      case Searched(r) =>
        if r.Success? {
          assert FilterStands(events, n);
        } else {
          if Replay(InitialPage, events).isFiltered {
            var i :| FilterStands(init, i);
            assert FilterStands(events, i);
          } else {
            forall i | FilterStands(events, i) ensures false {
              assert i != n;
              assert FilterStands(init, i);
            }
          }
        }
    }
  }

  // ---------------------------------------------------------------------
  // Champions of the displayed list
  // ---------------------------------------------------------------------

  /** The two summary cards: healthiest recipe and shortest preparation time. */
  datatype Criterion = HealthScore | PrepTime

  /**
   * The reducer's test: `prev` survives only when it is strictly better
   * than `current`; otherwise `current` takes over.
   */
  predicate KeepsPrev(c: Criterion, prev: Recipe, current: Recipe) {
    match c
    case HealthScore => prev.healthScore > current.healthScore
    case PrepTime => prev.readyInMinutes < current.readyInMinutes
  }

  /** How good an entry is for a criterion: larger is better. */
  function Rank(c: Criterion, r: Recipe): int {
    match c
    case HealthScore => r.healthScore
    case PrepTime => -r.readyInMinutes
  }

  /** `xs.reduce(reducer, acc)`: a left-to-right scan keeping a running champion. */
  function Reduce(c: Criterion, acc: Recipe, xs: seq<Recipe>): (r: Recipe)
    ensures r == acc || r in xs
    ensures Rank(c, acc) <= Rank(c, r)
    ensures forall j :: 0 <= j < |xs| ==> Rank(c, xs[j]) <= Rank(c, r)
    decreases |xs|
  {
    if |xs| == 0 then acc
    else Reduce(c, if KeepsPrev(c, acc, xs[0]) then acc else xs[0], xs[1..])
  }

  /** `highestHealthScoreRecipe` / `shortestPreparationTimeRecipe`; `None` is `null`. */
  function Champion(c: Criterion, xs: seq<Recipe>): (r: Option<Recipe>)
    ensures r.None? <==> |xs| == 0
    ensures r.Some? ==> r.value in xs
    ensures r.Some? ==> forall j :: 0 <= j < |xs| ==> Rank(c, xs[j]) <= Rank(c, r.value)
  {
    if |xs| > 0 then Some(Reduce(c, xs[0], xs)) else None
  }

  /** Position `k` holds a best entry and every later entry is strictly worse. */
  ghost predicate IsLastBest(c: Criterion, xs: seq<Recipe>, k: int) {
    && 0 <= k < |xs|
    && (forall j :: 0 <= j < |xs| ==> Rank(c, xs[j]) <= Rank(c, xs[k]))
    && (forall j :: k < j < |xs| ==> Rank(c, xs[j]) < Rank(c, xs[k]))
  }

  lemma LastBestIsUnique(c: Criterion, xs: seq<Recipe>, k1: int, k2: int)
    requires IsLastBest(c, xs, k1) && IsLastBest(c, xs, k2)
    ensures k1 == k2
  {
    assert Rank(c, xs[k1]) == Rank(c, xs[k2]);
  }

  /** An entry strictly better than everything after it is the last best entry. */
  lemma HeadIsLastBest(c: Criterion, xs: seq<Recipe>)
    requires |xs| > 0
    requires forall j :: 0 <= j < |xs[1..]| ==> Rank(c, xs[1..][j]) < Rank(c, xs[0])
    ensures IsLastBest(c, xs, 0)
  {
    forall j | 0 < j < |xs| ensures Rank(c, xs[j]) < Rank(c, xs[0]) {
      assert xs[j] == xs[1..][j - 1];
    }
  }

  /** The last best entry of the tail stays the last best entry when the head is no better. */
  lemma LastBestOfTail(c: Criterion, xs: seq<Recipe>, k: int)
    requires |xs| > 0
    requires IsLastBest(c, xs[1..], k)
    requires Rank(c, xs[0]) <= Rank(c, xs[1..][k])
    ensures IsLastBest(c, xs, k + 1)
  {
    assert xs[k + 1] == xs[1..][k];
    forall j | 0 < j < |xs| ensures Rank(c, xs[j]) <= Rank(c, xs[k + 1]) {
      assert xs[j] == xs[1..][j - 1];
    }
    forall j | k + 1 < j < |xs| ensures Rank(c, xs[j]) < Rank(c, xs[k + 1]) {
      assert xs[j] == xs[1..][j - 1];
    }
  }

  /**
   * The scan keeps its seed if every entry is strictly worse than it;
   * otherwise it ends on the last best entry.
   */
  lemma {:induction false} ReduceEndsOnLastBest(c: Criterion, acc: Recipe, xs: seq<Recipe>)
    ensures (forall j :: 0 <= j < |xs| ==> Rank(c, xs[j]) < Rank(c, acc)) ==> Reduce(c, acc, xs) == acc
    ensures (exists j :: 0 <= j < |xs| && Rank(c, acc) <= Rank(c, xs[j])) ==>
              exists k :: IsLastBest(c, xs, k) && Reduce(c, acc, xs) == xs[k]
    decreases |xs|
  {
    if |xs| > 0 {
      var acc' := if KeepsPrev(c, acc, xs[0]) then acc else xs[0];
      var rest := xs[1..];
      ReduceEndsOnLastBest(c, acc', rest);
      assert Reduce(c, acc, xs) == Reduce(c, acc', rest);
      if forall j :: 0 <= j < |rest| ==> Rank(c, rest[j]) < Rank(c, acc') {
        if !KeepsPrev(c, acc, xs[0]) {
          HeadIsLastBest(c, xs);
        }
      } else {
        var j0 :| 0 <= j0 < |rest| && Rank(c, acc') <= Rank(c, rest[j0]);
        var k' :| IsLastBest(c, rest, k') && Reduce(c, acc', rest) == rest[k'];
        LastBestOfTail(c, xs, k');
        assert xs[1 + j0] == rest[j0];
      }
    }
  }

  /**
   * For a non-empty list the champion is the LAST entry attaining the best
   * value: ties go to the later entry, not the first one.
   */
  lemma ChampionIsLastBest(c: Criterion, xs: seq<Recipe>)
    requires |xs| > 0
    ensures exists k :: IsLastBest(c, xs, k) && Champion(c, xs) == Some(xs[k])
  {
    ReduceEndsOnLastBest(c, xs[0], xs);
  }

  /** Two equally healthy recipes: the second one is the healthiest. */
  lemma TieGoesToLaterEntry(a: Recipe, b: Recipe)
    requires a.healthScore == b.healthScore
    ensures Champion(HealthScore, [a, b]) == Some(b)
  {
    assert [a, b][1..] == [b];
    assert [b][1..] == [];
    assert Reduce(HealthScore, a, [a, b]) == Reduce(HealthScore, a, [b]);
    assert Reduce(HealthScore, a, [b]) == Reduce(HealthScore, b, []);
  }

  /** `findIndex(x => x === r)`: the first position holding `r`, or -1. */
  function FindIndex(xs: seq<Recipe>, r: Recipe): (i: int)
    ensures -1 <= i < |xs|
    ensures i == -1 <==> r !in xs
    ensures 0 <= i ==> xs[i] == r && forall j :: 0 <= j < i ==> xs[j] != r
    decreases |xs|
  {
    if |xs| == 0 then -1
    else if xs[0] == r then 0
    else
      var k := FindIndex(xs[1..], r);
      if k == -1 then -1 else k + 1
  }

  /** `highestHealthScoreIndex` / `shortestPreparationTimeIndex`. */
  function ChampionIndex(c: Criterion, xs: seq<Recipe>): (i: int)
    ensures i == -1 <==> |xs| == 0
    ensures |xs| > 0 ==> 0 <= i < |xs| && Champion(c, xs) == Some(xs[i])
  {
    match Champion(c, xs)
    case None => -1
    case Some(r) => FindIndex(xs, r)
  }

  /** No two entries of the list are the same object. */
  ghost predicate DistinctObjects(xs: seq<Recipe>) {
    forall i, j :: 0 <= i < j < |xs| ==> xs[i].ref != xs[j].ref
  }

  /**
   * The champion's index is -1 exactly for an empty list; otherwise it is a
   * valid position holding the champion, and when entries are distinct
   * objects it is the position of the last best entry.
   */
  lemma ChampionIndexLocatesChampion(c: Criterion, xs: seq<Recipe>)
    ensures ChampionIndex(c, xs) == -1 <==> |xs| == 0
    ensures |xs| > 0 ==> 0 <= ChampionIndex(c, xs) < |xs| && Champion(c, xs) == Some(xs[ChampionIndex(c, xs)])
    ensures |xs| > 0 && DistinctObjects(xs) ==> IsLastBest(c, xs, ChampionIndex(c, xs))
  {
    if |xs| > 0 {
      ChampionIsLastBest(c, xs);
      var k :| IsLastBest(c, xs, k) && Champion(c, xs) == Some(xs[k]);
      var i := ChampionIndex(c, xs);
      if DistinctObjects(xs) {
        assert xs[i].ref == xs[k].ref;
      }
    }
  }

  /**
   * `scrollToRecipe`'s guard: scroll to `index` only when it is non-negative
   * and a mounted element is registered there.  `mounted[i]` says whether
   * `recipeRefs.current[i].current` is set.
   */
  function ScrollTarget(index: int, mounted: seq<bool>): (t: Option<nat>)
    ensures t.Some? ==> t.value == index && index < |mounted| && mounted[index]
    ensures t.None? ==> index < 0 || index >= |mounted| || !mounted[index]
  {
    if 0 <= index < |mounted| && mounted[index] then Some(index) else None
  }

  /**
   * With every entry of a non-empty list mounted, "View Recipe" scrolls to
   * the position holding the champion.
   */
  lemma ViewRecipeScrollsToChampion(c: Criterion, xs: seq<Recipe>, mounted: seq<bool>)
    requires |xs| > 0 && |mounted| == |xs|
    requires forall i :: 0 <= i < |mounted| ==> mounted[i]
    ensures ScrollTarget(ChampionIndex(c, xs), mounted).Some?
    ensures Champion(c, xs) == Some(xs[ScrollTarget(ChampionIndex(c, xs), mounted).value])
  {
  }

  /** With nothing displayed, both "View Recipe" buttons do nothing. */
  lemma EmptyListingScrollsNowhere(c: Criterion, mounted: seq<bool>)
    ensures Champion(c, []) == None
    ensures ScrollTarget(ChampionIndex(c, []), mounted) == None
  {
  }
}

=== FILE: wrappers.dfy ===
/** Optional values and results with an error, as used throughout the model. */
module Wrappers {

  /** A value that may be absent (JavaScript `null` / `undefined`). */
  datatype Option<+T> = None | Some(value: T) {

    /** The wrapped value, or `default` when absent (the `x || default` idiom). */
    function GetOr(default: T): T {
      match this
      case Some(v) => v
      case None => default
    }
  }

  /** Either a computed value or the error a rejected promise carries. */
  datatype Result<+T, +E> = Success(value: T) | Failure(error: E)
}
